=== FILE: README.md ===
# Weekly calendar to-do planner — a Dafny model

This project models the core of a single-page weekly/daily calendar planner (`app.js`).
Tasks are pinned to a (day, hour) slot of a 7 × 24 grid. The user creates and edits them
through an editor dialog, drags them to other slots, ticks them done and deletes them. The
planner shows either the whole week or a single selected day.

The model replaces the program's global mutable `state` object with an immutable
`App.State` value. Each event handler becomes a pure function from state to state:

- `Options`: `Option`, which stands for `null` and absent properties.
- `Text`: ECMAScript `trim`, `escapeHtml` and `pad2`. Each comes with a partner: the
  single-pass escaping and its decoder, and decimal parsing for `pad2`.
- `Calendar`: `getMondayBasedIndex`, the daily-mode day shift with JavaScript's
  remainder, and the week start. Calendar dates are integer day numbers, and day 0 is
  1970-01-01, a Thursday.
- `Tasks`: the task record and the first-match search behind `Array.prototype.find`.
  Also the in-place mutations (edit, move, complete), the filter used by delete, and the
  unique-id invariant.
- `App`: the state and the handlers `saveTaskFromForm`, `deleteCurrentTask`, `moveTask`,
  `toggleTaskComplete`, `openTaskDialog`, drag start/end, drop-id resolution, `setView`
  and `shiftPeriod`.
- `Controller`: the event wiring as one dispatch function `Handle`, the invariant every
  event preserves, and the end-to-end scenarios.
- `Grid`: `renderGrid` / `renderHeaderLabel` as a projection onto an abstract surface of
  rows and cells.

The model follows the code as written:

- `saveTaskFromForm` does not clear `editingTaskId` (app.js:253-255): after a save the
  dialog closes with the stale id still in the state. Nothing reads it before the next
  `openTaskDialog`, which overwrites it (app.js:216). Of the handlers that change the list,
  only `deleteCurrentTask` clears it (app.js:261). `App.SaveTaskFromForm` leaves it
  unchanged.
- An empty-slot click does not pre-fill the clicked hour, and a click on a card's "Done"
  text opens the editor as well as toggling the task (see Findings). `Controller.Handle`
  dispatches both events as written. The evidently intended versions are defined beside
  them, with their properties proved.

Other modelling decisions:

- JavaScript truthiness of ids (`if (state.editingTaskId)`, `Boolean(taskData.id)`,
  `getData(...) || state.dragTaskId`) is `App.Truthy`: present and non-empty.
- `crypto.randomUUID()` becomes a caller-supplied id. `App.FreshId` requires it to be
  non-empty and not yet in the list.

## Model

| member | source | states |
|---|---|---|
| Text.Trim | app.js:233 | the trimmed title is the part of the input between a white-space prefix and a white-space suffix; it starts and ends with a non-space character; it is empty exactly when the input is all white space |
| Text.TrimIdempotent | app.js:233 | trimming an already trimmed title changes nothing |
| Text.ReplaceAll | app.js:343 | a one-character `replaceAll` only introduces characters of the replacement; it is the identity when the character is absent |
| Text.EscapeHtml | app.js:341-348 | escaped text contains no `<`, `>`, `"` or `'` |
| Text.EscapeHtmlChar | app.js:342-347 | on one character the five passes yield exactly its entity, so no entity inserted by an earlier pass (`&` first) is escaped again |
| Text.EscapeHtmlConcat | app.js:341-348 | escaping a concatenation escapes each part separately |
| Text.EscapeHtmlIsEscapeEach | app.js:341-348 | the five sequential passes equal a single pass that maps each character to its entity |
| Text.UnescapeEscapeHtml | app.js:341-348 | decoding the five entities recovers the original title exactly |
| Text.EscapeHtmlInjective | app.js:341-348 | two different titles never produce the same markup |
| Text.NatToString | app.js:338 | `String(n)` is a non-empty string of digits; it has one digit exactly when n < 10 |
| Text.Pad2 | app.js:337-339 | `pad2` produces digits only; it has exactly two characters exactly when the value is below 100 |
| Text.NatToStringRoundTrip | app.js:338 | the decimal string of n reads back as n |
| Text.Pad2RoundTrip | app.js:337-339 | the padded label reads back as the number it was made from; the leading zero does not count |
| Text.Pad2Injective | app.js:337-339 | different hours get different labels |
| Text.UpperAscii | app.js:151 | on ASCII text, which is all the three priority names contain, `toUpperCase` keeps the length and maps each lower-case letter to its capital, leaving other characters alone |
| Calendar.MondayBasedIndex | app.js:323-325 | converting back to `getDay` numbering recovers the weekday; Monday maps to 0 and Sunday to 6 |
| Calendar.MondayBasedIndexBijective | app.js:323-325 | the Monday-based and Sunday-based numberings correspond one to one |
| Calendar.JsRemainder | app.js:76 | JavaScript `%` lies strictly between -b and b; it agrees with the Euclidean remainder for a non-negative dividend and is non-positive for a negative one |
| Calendar.ShiftDay | app.js:76 | a daily step stays in 0..6: forward from Sunday wraps to Monday, backward from Monday wraps to Sunday, otherwise the index moves by one |
| Calendar.ShiftDayInverse | app.js:76 | a step back undoes a step forward and vice versa |
| Calendar.ShiftDayTimesForward | app.js:76 | k forward steps land on (i + k) mod 7 |
| Calendar.ShiftDayTimesBackward | app.js:76 | k backward steps land on (i - k) mod 7 |
| Calendar.ShiftDaySevenTimes | app.js:76 | seven steps in one direction return to the starting day |
| Calendar.WeekStart | app.js:315-321 | the week start falls on a Monday, is not after the date, and is less than seven days before it |
| Calendar.WeekStartShift | app.js:315-331 | moving a date by ±7 days moves its week start by the same amount |
| Tasks.FirstMatch | app.js:268 | `find` returns the position of a matching task with no match before it, and finds nothing exactly when no task matches |
| Tasks.GetTaskAt | app.js:286-288 | the slot lookup returns the earliest task in list order whose day and hour both match; it returns none exactly when no task is in the slot |
| Tasks.GetTaskAtEarliest | app.js:286-288 | the task at position k is what its slot shows whenever no earlier task occupies that slot |
| Tasks.Apply | app.js:242-284 | a mutation never changes the id; an edit overwrites the five form fields and keeps the completion flag; a move changes only day and hour; a toggle changes only the flag |
| Tasks.UpdateFirst | app.js:267-284 | updating by id keeps length and ids; only the first task with the id is replaced; an unknown id leaves the list unchanged |
| Tasks.RemoveAll | app.js:260 | after the filter, a task is in the result exactly when it was in the list and has another id; the list is unchanged when no task has the id |
| Tasks.RemoveAllConcat | app.js:260 | the filter works piecewise, so survivors keep their relative order |
| Tasks.RemoveOnly | app.js:260 | when only position i has the id, deleting removes that one task and closes the gap |
| Tasks.RemoveUnique | app.js:260 | with unique ids, deleting the id of task i yields the list without position i |
| Tasks.RemoveUncovers | app.js:258-288 | deleting the earlier of two tasks that share a slot makes the slot show the later one |
| Tasks.UpdateFirstKeepsUniqueIds | app.js:242-284 | edits, moves and toggles keep ids unique |
| Tasks.RemoveAllKeepsUniqueIds | app.js:260 | deleting keeps ids unique |
| Tasks.AppendKeepsUniqueIds | app.js:246-250 | appending a task with an unused id keeps ids unique |
| Tasks.FirstMatchUnique | app.js:268 | with unique ids, the search by task i's id stops at i |
| Tasks.FirstMatchSameIds | app.js:268 | lists with the same ids at every position have the same first match by id |
| App.Init | app.js:14-21 | start-up state: weekly view anchored today, today's Monday-based row selected, stored tasks loaded, nothing edited or dragged |
| App.PrefillOf | app.js:166-169 | a card click passes the task itself: its id, title, day, hour, colour and priority |
| App.OpenTaskDialog | app.js:214-229 | a truthy id enters edit mode for that id and anything else enters create mode; each supplied title, day (including Monday, day 0), hour and priority, and a non-empty colour, is copied into the form; missing fields default to the selected day, hour 8, an empty title, medium priority and the default colour; only `editingTaskId` changes |
| App.NewTask | app.js:246-250 | a created task carries the fresh id, the payload fields and `completed = false` |
| App.SaveTaskFromForm | app.js:231-256 | a blank title changes nothing; in edit mode the first task with the edited id gets the trimmed title and the form's day, hour, colour and priority, keeping its id, flag and position, and an unknown id changes nothing; in create mode exactly one new uncompleted task is appended; `editingTaskId` and the view state are untouched |
| App.DeleteCurrentTask | app.js:258-265 | with no edited id nothing happens; otherwise exactly the tasks with another id remain and edit mode ends |
| App.MoveTask | app.js:267-275 | only day and hour of the first task with the id change; an unknown id is a no-op; length and the rest of the state are kept |
| App.ToggleTaskComplete | app.js:277-284 | only the completion flag of the first task with the id changes; an unknown id is a no-op; edit mode is not touched |
| App.DragStart | app.js:171-176 | drag start records the task id and changes nothing else |
| App.DragEnd | app.js:178-182 | drag end clears the recorded id and changes nothing else |
| App.ResolveDropId | app.js:201-202 | a non-empty payload wins; otherwise the recorded drag id is used if it is truthy; a resolved id is never empty |
| App.DropOnSlot | app.js:197-207 | a drop moves the first task with the resolved id to the slot and leaves every other task as it was; with nothing resolved the state is unchanged |
| App.SetView | app.js:65-70 | only the view mode changes |
| App.ShiftPeriod | app.js:72-79 | in weekly view only the anchor moves, by seven days per press; in daily view only the selected day moves, one step with wrap-around |
| App.ShiftPeriodTimesDaily | app.js:72-79 | in daily view, k presses move the selected day k steps and nothing else |
| App.DailyShiftSevenTimes | app.js:72-79 | in daily view, seven presses of next, or of previous, restore the state |
| App.ShiftPeriodInverse | app.js:72-79 | next then previous, or previous then next, restores the state in both views |
| App.WeeklyShiftMovesWeek | app.js:72-79 | in weekly view a press moves the displayed week by exactly seven days |
| App.SetViewLastWins | app.js:65-70 | of two view switches only the last counts; switching back restores the state |
| Controller.SlotClickPrefillAsWritten | app.js:124-127 | the empty-slot click passes the day, but no hour the dialog can read |
| Controller.SlotClickPrefill | app.js:124-127 | the corrected argument carries the slot's day and hour and no id |
| Controller.SlotClickAsWrittenLosesHour | app.js:124-127 | as written, a click on any empty slot opens create mode on the clicked day at hour 8 with an empty title, the default colour and medium priority, whatever hour was clicked; so Wednesday 15:00 opens at 08:00 |
| Controller.SlotClickPrefillsSlot | app.js:221-225 | with the corrected argument, a slot click opens create mode with that slot's day and hour, an empty title, the default colour and medium priority |
| Controller.CardClickOpensTask | app.js:166-169 | a card click opens edit mode for that task with the task's own fields |
| Controller.DoneTextClickAsWritten | app.js:154-169 | as written, a click on the "Done" text opens edit mode on the card's task, fills the form with the task's own fields when its colour is set, and toggles the task exactly as a checkbox click does; nothing else in the state changes |
| Controller.DoneTextClickIntended | app.js:160-164 | the intended "Done" text click toggles the task as a checkbox click does, changes nothing else in the state and keeps ids unique and non-empty |
| Controller.DoneTextClickOpensEditor | app.js:154-169 | for a task not being edited, both versions leave the same list, but only the as-written one changes `editingTaskId` |
| Controller.Handle | app.js:48-169 | each event reaches the handler the program binds to it: the view buttons `setView`, the period buttons `shiftPeriod`, the checkbox `toggleTaskComplete`, submit `saveTaskFromForm`, delete `deleteCurrentTask`, drag start and end, and a drop `moveTask` on the resolved id; an empty-slot click opens create mode at hour 8 on the clicked day; a card click opens edit mode on that task with its own fields; a click on the "Done" text opens edit mode on the task and toggles it; cancel changes nothing; only clicks open the form; every event keeps ids unique and non-empty |
| Controller.SaveKeepsValid | app.js:242-251 | saving keeps ids unique and non-empty |
| Controller.DeleteKeepsValid | app.js:258-265 | deleting keeps ids unique and non-empty |
| Controller.ToggleKeepsValid | app.js:277-284 | toggling keeps ids unique and non-empty |
| Controller.DropKeepsValid | app.js:197-207 | dropping keeps ids unique and non-empty |
| Controller.EditUnchangedKeepsTasks | app.js:214-256 | opening a task (trimmed non-empty title, colour set) and submitting unchanged leaves the list unchanged |
| Controller.OpenThenDeleteRemovesTask | app.js:258-265 | opening a card and deleting removes exactly that task, keeps the others in order, and ends edit mode |
| Controller.DropMovesTask | app.js:197-207 | dropping with a task's id as payload moves only that task; its old slot becomes empty if no other task was there |
| Controller.DragFallbackMovesTask | app.js:201 | with an empty payload, the drop moves the task recorded at drag start |
| Controller.ToggleUndo | app.js:277-284 | toggling back to the former flag restores the state |
| Controller.MoveLastWins | app.js:267-275 | of two moves of the same task only the last one counts |
| Controller.SharedSlotEarlierWins | app.js:286-288 | of two tasks in one slot the earlier one shows; both are still found by id; deleting the earlier one uncovers the later one |
| Grid.TimeLabel | app.js:108 | an hour label is two digits that read back as the hour, followed by ":00" |
| Grid.PriorityLabel | app.js:151 | the priority label is the stored priority name upper-cased letter by letter |
| Grid.PriorityLabelInjective | app.js:151 | different priorities never share a label |
| Grid.CardOf | app.js:141-158 | a card shows the id, flag, colour and priority of its task and the upper-cased priority name; its title contains no markup characters yet decodes back to the task's title; its time label is the hour's label |
| Grid.SlotCard | app.js:131-134 | a cell shows the card of the earliest task in its slot, and is empty exactly when no task is in the slot |
| Grid.VisibleDays | app.js:99 | weekly view shows all seven days, Monday first, each once; daily view shows only the selected day |
| Grid.RenderRow | app.js:111-138 | a row carries its day and day name and 24 cells for hours 0 to 23 in order |
| Grid.RenderHeaderLabel | app.js:86-94 | weekly view shows the Monday-to-Sunday range of the anchor's week; daily view shows the selected day's name |
| Grid.Render | app.js:80-139 | the surface has the header label of the current view, the corner cell, 24 hour labels and one row per visible day; each cell shows the earliest task in its slot |
| Grid.SlotCardPlacement | app.js:131-134 | with unique ids, a task's card is in a slot exactly when it is the task's own slot and no earlier task occupies it |
| Grid.CardPlacement | app.js:96-139 | in weekly view, a task's card appears in cell (k, h) exactly when (k, h) is its slot and it is the earliest task there |
| Grid.DailyShowsSelectedDay | app.js:86-99 | daily view renders a single row, the selected day, headed by its name |
| Grid.CreateFirstTaskShows | app.js:231-256 | creating the first task gives a one-task list whose task is uncompleted, carries the new id, and shows in the weekly grid at its slot |

## Left out

- DOM construction, CSS classes, card opacity, drop-target highlighting and `clearDropTargets`, `fillDaySelect` and `createCell`: presentation only. The grid is an abstract surface of rows, cells and cards.
- Showing, closing and focusing the dialog (`showModal`, `close`, `focus`): presentation only. In particular, the model does not say that a blank title leaves the dialog open; it says only that the state is unchanged.
- `addEventListener` wiring is modelled only as the dispatch in `Controller.Handle`. `preventDefault` and `stopPropagation` are represented by routing each click to the handlers it reaches: a click on the checkbox reaches only the checkbox's handler; a click on the "Done" text reaches the card's handler and then the checkbox's; any other click on a card reaches only the card's; a click on an empty slot reaches only the slot's.
- `localStorage`, `JSON.parse`/`JSON.stringify`, `loadTasks` and `persistTasks`: foreign storage and parsing. The persisted list is `State.tasks` after each handler. `App.Init` takes the loaded list as a parameter, and a corrupt store is not modelled.
- `Date` objects, time zones, DST and the time of day: the anchor date is an integer day number. `addDays` is integer addition on it, and `getDay` is `Calendar.WeekdayOf` counted from 1970-01-01, a Thursday.
- `formatDate` / `toLocaleDateString`: locale-dependent formatting. The weekly header carries the Monday and Sunday day numbers, not their text.
- `crypto.randomUUID`: randomness. The fresh id is a parameter that must be non-empty and unused (`App.FreshId`).
- `Number(...)` coercion of form values and slot data attributes: day and hour are subset types 0..6 and 0..23. The priority is the enumeration the form's select offers, so arbitrary strings from a corrupt store are not modelled.
- Strings: Dafny's `string` is a sequence of Unicode scalar values, while JavaScript strings are sequences of UTF-16 code units. `trim`, `escapeHtml`, `toUpperCase` on the priority names and `pad2` act only on characters of the Basic Multilingual Plane, so they behave the same on both. A title holding a lone surrogate cannot be represented.
- Calendar.JsRemainder: for a negative dividend the contract states only the result's sign and bound, not its exact value. The planner only ever divides non-negative numbers.
- App.ShiftPeriod: requires the direction to be -1 or +1, the only values the previous and next buttons pass.

## Findings

| source | as written | input that shows it | evidently intended | confidence | as-written member | corrected member |
|---|---|---|---|---|---|---|
| app.js:126 | the empty-slot click calls `openTaskDialog({ day: dayIndex, time: hour })`, but `openTaskDialog` reads `taskData.hour ?? 8` (app.js:223), so the clicked hour is ignored and the form opens at 08:00 (`Controller.SlotClickAsWrittenLosesHour`) | a click on the empty slot Wednesday 15:00 (day 2, hour 15) | the form opens at the clicked slot's day and hour (`Controller.SlotClickPrefillsSlot`) | high; not executed | Controller.SlotClickPrefillAsWritten | Controller.SlotClickPrefill |
| app.js:154-169 | the "Done" text sits in a `<label>` around the checkbox inside the card, and only the checkbox's own click handler stops propagation; a click on the text bubbles to the card, which opens the editor on the task (app.js:166-169), and the label then clicks the checkbox, which toggles the task (`Controller.DoneTextClickOpensEditor`) | a click on the "Done" text of a task that is not being edited | the text toggles the task like the checkbox and leaves the editor closed, as the checkbox's `stopPropagation` shows is meant | medium; not executed | Controller.DoneTextClickAsWritten | Controller.DoneTextClickIntended |

=== FILE: app.dfy ===
/**
  The application state and the interaction handlers that change it: saving the editor
  form, deleting the edited task, moving and completing tasks, opening the editor, drag and
  drop, switching view and paging through days or weeks. Each handler is a pure function
  from the old state to the new one; persisting the list, closing the dialog and
  re-rendering are the handlers' side effects and are not part of the state.
 */
module App {

  import opened Options
  import opened Text
  import opened Calendar
  import opened Tasks

  datatype View = Weekly | Daily

  /** The program's single `state` object. `anchorDay` is the anchor date as a day number. */
  datatype State = State(
    currentView: View,
    anchorDay: int,
    selectedDayIndex: DayIndex,
    tasks: seq<Task>,
    editingTaskId: Option<string>,
    dragTaskId: Option<string>)

  /** What JavaScript's truthiness test sees in an optional id: present and non-empty. */
  predicate Truthy(id: Option<string>) {
    id.Some? && id.value != ""
  }

  /** The state the invariant keeps: ids are unique and non-empty, as UUIDs are. */
  predicate Valid(s: State) {
    && UniqueIds(s.tasks)
    && forall j :: 0 <= j < |s.tasks| ==> s.tasks[j].id != ""
  }

  /** An id no task in the list carries: a stand-in for `crypto.randomUUID()`. */
  predicate FreshId(s: State, id: string) {
    id != "" && forall j :: 0 <= j < |s.tasks| ==> s.tasks[j].id != id
  }

  /** The state at start-up: weekly view anchored at today, today's row selected for the
      daily view, the stored list loaded, nothing being edited or dragged. */
  function Init(todayWeekday: Weekday, today: int, stored: seq<Task>): (r: State)
    ensures r.currentView == Weekly && r.anchorDay == today && r.tasks == stored
    ensures SundayBasedIndex(r.selectedDayIndex) == todayWeekday
    ensures r.editingTaskId == None && r.dragTaskId == None
  {
    State(Weekly, today, MondayBasedIndex(todayWeekday), stored, None, None)
  }

  // ---------------------------------------------------------------------------
  // The editor
  // ---------------------------------------------------------------------------

  const DEFAULT_COLOR: string := "#4f46e5"
  const DEFAULT_HOUR: Hour := 8

  /** The object handed to `openTaskDialog`: a whole task (edit) or a few pre-filled
      fields (create). Absent properties are `None`. */
  datatype Prefill = Prefill(
    id: Option<string>,
    title: Option<string>,
    day: Option<Day>,
    hour: Option<Hour>,
    color: Option<string>,
    priority: Option<Priority>)

  /** A task passed as the dialog's argument, as a click on its card does. */
  function PrefillOf(t: Task): (r: Prefill)
    ensures r.id == Some(t.id) && r.day == Some(t.day) && r.hour == Some(t.hour)
    ensures r.title == Some(t.title) && r.color == Some(t.color) && r.priority == Some(t.priority)
  {
    Prefill(Some(t.id), Some(t.title), Some(t.day), Some(t.hour), Some(t.color), Some(t.priority))
  }

  /** `openTaskDialog`: a truthy id selects edit mode for that id, anything else create
      mode; the form is filled from the argument, with the selected day, hour 8, the
      default colour and medium priority where the argument is silent. Only
      `editingTaskId` changes in the state. */
  function OpenTaskDialog(s: State, data: Prefill): (r: (State, Fields))
    ensures r.0.(editingTaskId := s.editingTaskId) == s
    ensures Truthy(data.id) ==> r.0.editingTaskId == data.id
    ensures !Truthy(data.id) ==> r.0.editingTaskId == None
    ensures data.day.None? ==> r.1.day == s.selectedDayIndex
    ensures data.hour.None? ==> r.1.hour == DEFAULT_HOUR
    ensures data.title.None? ==> r.1.title == ""
    ensures data.priority.None? ==> r.1.priority == Medium
    ensures (data.color.None? || data.color == Some("")) ==> r.1.color == DEFAULT_COLOR
    ensures data.title.Some? ==> r.1.title == data.title.value
    ensures data.day.Some? ==> r.1.day == data.day.value
    ensures data.hour.Some? ==> r.1.hour == data.hour.value
    ensures data.priority.Some? ==> r.1.priority == data.priority.value
    ensures data.color.Some? && data.color.value != "" ==> r.1.color == data.color.value
  {
    var editing := if Truthy(data.id) then data.id else None;
    var form := Fields(
      if data.title.Some? then data.title.value else "",
      if data.day.Some? then data.day.value else s.selectedDayIndex,
      if data.hour.Some? then data.hour.value else DEFAULT_HOUR,
      if data.color.Some? && data.color.value != "" then data.color.value else DEFAULT_COLOR,
      if data.priority.Some? then data.priority.value else Medium);
    (s.(editingTaskId := editing), form)
  }

  /** The task built by a save in create mode. */
  function NewTask(id: string, payload: Fields): (t: Task)
    ensures t.id == id && !t.completed
    ensures Fields(t.title, t.day, t.hour, t.color, t.priority) == payload
  {
    Task(id, payload.title, payload.day, payload.hour, payload.color, payload.priority, false)
  }

  /** `saveTaskFromForm`. A title that is empty after trimming changes nothing. Otherwise,
      in edit mode the first task with the edited id takes the form's title (trimmed), day,
      hour, colour and priority and keeps its id, completion flag and position (an id no
      task has changes nothing); in create mode one new, uncompleted task with the fresh id
      is appended. `editingTaskId` is left as it was, and no other part of the state
      changes. */
  function SaveTaskFromForm(s: State, form: Fields, freshId: string): (r: State)
    requires FreshId(s, freshId)
    ensures r.(tasks := s.tasks) == s
    ensures Trim(form.title) == [] ==> r == s
    ensures Trim(form.title) != [] && Truthy(s.editingTaskId) ==>
      match FirstMatch(s.tasks, ById(s.editingTaskId.value))
      case None => r.tasks == s.tasks
      case Some(i) =>
        var t := s.tasks[i];
        ReplacedAt(s.tasks, r.tasks, i,
          Task(t.id, Trim(form.title), form.day, form.hour, form.color, form.priority, t.completed))
    ensures Trim(form.title) != [] && !Truthy(s.editingTaskId) ==>
      && |r.tasks| == |s.tasks| + 1
      && r.tasks[..|s.tasks|] == s.tasks
      && r.tasks[|s.tasks|] == Task(freshId, Trim(form.title), form.day, form.hour, form.color, form.priority, false)
  {
    var payload := form.(title := Trim(form.title));
    if payload.title == [] then s
    else if Truthy(s.editingTaskId) then s.(tasks := UpdateFirst(s.tasks, s.editingTaskId.value, Assign(payload)))
    else s.(tasks := s.tasks + [NewTask(freshId, payload)])
  }

  /** `deleteCurrentTask`: nothing happens unless an id is being edited; then every task
      with that id goes, the others stay, and edit mode ends. */
  function DeleteCurrentTask(s: State): (r: State)
    ensures !Truthy(s.editingTaskId) ==> r == s
    ensures Truthy(s.editingTaskId) ==>
      && r.editingTaskId == None
      && r.(tasks := s.tasks, editingTaskId := s.editingTaskId) == s
      && |r.tasks| <= |s.tasks|
      && forall t :: t in r.tasks <==> t in s.tasks && t.id != s.editingTaskId.value
  {
    if !Truthy(s.editingTaskId) then s
    else s.(tasks := RemoveAll(s.tasks, s.editingTaskId.value), editingTaskId := None)
  }

  // ---------------------------------------------------------------------------
  // Moving and completing
  // ---------------------------------------------------------------------------

  /** `moveTask`: the first task with `id` takes the new day and hour and keeps everything
      else; no other task and no other part of the state changes; an unknown id is a no-op. */
  function MoveTask(s: State, id: string, day: Day, hour: Hour): (r: State)
    ensures r.(tasks := s.tasks) == s
    ensures FirstMatch(s.tasks, ById(id)).None? ==> r == s
    ensures FirstMatch(s.tasks, ById(id)).Some? ==>
      var i := FirstMatch(s.tasks, ById(id)).value;
      ReplacedAt(s.tasks, r.tasks, i, s.tasks[i].(day := day, hour := hour))
  {
    s.(tasks := UpdateFirst(s.tasks, id, Place(day, hour)))
  }

  /** `toggleTaskComplete`: the first task with `id` takes the given completion flag and
      keeps everything else; an unknown id is a no-op. Edit mode is not entered. */
  function ToggleTaskComplete(s: State, id: string, completed: bool): (r: State)
    ensures r.(tasks := s.tasks) == s
    ensures FirstMatch(s.tasks, ById(id)).None? ==> r == s
    ensures FirstMatch(s.tasks, ById(id)).Some? ==>
      var i := FirstMatch(s.tasks, ById(id)).value;
      ReplacedAt(s.tasks, r.tasks, i, s.tasks[i].(completed := completed))
  {
    s.(tasks := UpdateFirst(s.tasks, id, SetDone(completed)))
  }

  // ---------------------------------------------------------------------------
  // Drag and drop
  // ---------------------------------------------------------------------------

  /** `dragstart` on a task card. */
  function DragStart(s: State, id: string): (r: State)
    ensures r.dragTaskId == Some(id) && r.(dragTaskId := s.dragTaskId) == s
  {
    s.(dragTaskId := Some(id))
  }

  /** `dragend` on a task card. */
  function DragEnd(s: State): (r: State)
    ensures r.dragTaskId == None && r.(dragTaskId := s.dragTaskId) == s
  {
    s.(dragTaskId := None)
  }

  /** `getData('text/plain') || state.dragTaskId`: the transfer payload wins when it is
      non-empty, the recorded drag id is the fallback, and an empty or absent result means
      there is nothing to move. */
  function ResolveDropId(payload: string, dragTaskId: Option<string>): (r: Option<string>)
    ensures r.Some? ==> r.value != ""
    ensures payload != "" ==> r == Some(payload)
    ensures payload == "" ==> (r.Some? <==> Truthy(dragTaskId))
    ensures payload == "" && r.Some? ==> r == dragTaskId
  {
    if payload != "" then Some(payload)
    else if Truthy(dragTaskId) then dragTaskId
    else None
  }

  /** A `drop` on the slot (`day`, `hour`): the resolved task moves there; nothing
      happens when no id resolves or no task has it. */
  function DropOnSlot(s: State, payload: string, day: Day, hour: Hour): (r: State)
    ensures r.(tasks := s.tasks) == s
    ensures |r.tasks| == |s.tasks|
    ensures ResolveDropId(payload, s.dragTaskId).None? ==> r == s
    ensures ResolveDropId(payload, s.dragTaskId).Some? ==>
      var id := ResolveDropId(payload, s.dragTaskId).value;
      forall j :: 0 <= j < |s.tasks| ==>
        r.tasks[j] == if Some(j) == FirstMatch(s.tasks, ById(id)) then s.tasks[j].(day := day, hour := hour) else s.tasks[j]
  {
    match ResolveDropId(payload, s.dragTaskId)
    case None => s
    case Some(id) => MoveTask(s, id, day, hour)
  }

  // ---------------------------------------------------------------------------
  // View
  // ---------------------------------------------------------------------------

  /** `setView`: only the view mode changes. */
  function SetView(s: State, view: View): (r: State)
    ensures r.currentView == view && r.(currentView := s.currentView) == s
  {
    s.(currentView := view)
  }

  /** `shiftPeriod` for the previous (-1) and next (+1) buttons: a week of anchor in weekly
      mode, one selected day with wrap-around in daily mode. */
  function ShiftPeriod(s: State, direction: int): (r: State)
    requires direction == -1 || direction == 1
    ensures s.currentView == Weekly ==> r == s.(anchorDay := s.anchorDay + 7 * direction)
    ensures s.currentView == Daily ==>
      && r.(selectedDayIndex := s.selectedDayIndex) == s
      && r.selectedDayIndex == ShiftDay(s.selectedDayIndex, direction)
  {
    if s.currentView == Weekly then s.(anchorDay := s.anchorDay + 7 * direction)
    else s.(selectedDayIndex := ShiftDay(s.selectedDayIndex, direction))
  }

  /** `ShiftPeriod` applied `k` times. */
  function ShiftPeriodTimes(s: State, direction: int, k: nat): State
    requires direction == -1 || direction == 1
  {
    if k == 0 then s else ShiftPeriod(ShiftPeriodTimes(s, direction, k - 1), direction)
  }

  /** In daily view, `k` presses of a button move the selected day `k` times. */
  lemma {:induction false} ShiftPeriodTimesDaily(s: State, direction: int, k: nat)
    requires s.currentView == Daily
    requires direction == -1 || direction == 1
    ensures ShiftPeriodTimes(s, direction, k) == s.(selectedDayIndex := ShiftDayTimes(s.selectedDayIndex, direction, k))
  {
    if k > 0 {
      ShiftPeriodTimesDaily(s, direction, k - 1);
    }
  }

  /** In daily view, seven presses of "next" (or of "previous") come back to the start. */
  lemma DailyShiftSevenTimes(s: State, direction: int)
    requires s.currentView == Daily
    requires direction == -1 || direction == 1
    ensures ShiftPeriodTimes(s, direction, 7) == s
  {
    ShiftPeriodTimesDaily(s, direction, 7);
    ShiftDaySevenTimes(s.selectedDayIndex, direction);
  }

  /** "Next" then "previous" (or the other way round) is the identity in either view. */
  lemma ShiftPeriodInverse(s: State, direction: int)
    requires direction == -1 || direction == 1
    ensures ShiftPeriod(ShiftPeriod(s, direction), -direction) == s
  {
    if s.currentView == Daily {
      ShiftDayInverse(s.selectedDayIndex, direction);
    }
  }

  /** In weekly view a shift moves the displayed week, Monday to Sunday, by exactly one week. */
  lemma WeeklyShiftMovesWeek(s: State, direction: int)
    requires s.currentView == Weekly
    requires direction == -1 || direction == 1
    ensures WeekStart(ShiftPeriod(s, direction).anchorDay) == WeekStart(s.anchorDay) + 7 * direction
  {
    WeekStartShift(s.anchorDay, direction);
  }

  /** Switching views never moves the selection, so a later switch back shows the same days. */
  lemma SetViewLastWins(s: State, a: View, b: View)
    ensures SetView(SetView(s, a), b) == SetView(s, b)
    ensures SetView(SetView(s, a), s.currentView) == s
  {
  }

}

=== FILE: calendar.dfy ===
/**
  The pure date arithmetic of the planner. A calendar date is an integer day number
  (day 0 is 1970-01-01, a Thursday); the time of day, time zones and formatting are not
  modelled. Weekdays come in two numberings: `getDay`'s (0 = Sunday) and the grid's
  (0 = Monday).
 */
module Calendar {

  /** A weekday as JavaScript's `Date.prototype.getDay` reports it: 0 = Sunday … 6 = Saturday. */
  type Weekday = w: int | 0 <= w < 7

  /** A row of the weekly grid: 0 = Monday … 6 = Sunday. */
  type DayIndex = i: int | 0 <= i < 7

  /** The inverse numbering change: Monday-based index back to `getDay`'s weekday. */
  function SundayBasedIndex(i: DayIndex): Weekday {
    (i + 1) % 7
  }

  /** `getMondayBasedIndex`: Monday becomes 0 and Sunday 6, whatever the locale's first
      day of the week. */
  function MondayBasedIndex(w: Weekday): (i: DayIndex)
    ensures SundayBasedIndex(i) == w
    ensures w == 1 <==> i == 0
    ensures w == 0 <==> i == 6
  {
    (w + 6) % 7
  }

  /** The two numberings are in one-to-one correspondence. */
  lemma MondayBasedIndexBijective(i: DayIndex, w: Weekday)
    ensures MondayBasedIndex(SundayBasedIndex(i)) == i
    ensures MondayBasedIndex(w) == i <==> SundayBasedIndex(i) == w
  {
  }

  /** JavaScript's `%` on integers: the remainder takes the sign of the dividend, so it
      agrees with Dafny's Euclidean `%` only for a non-negative dividend. */
  function JsRemainder(a: int, b: int): (r: int)
    requires b > 0
    ensures -b < r < b
    ensures a >= 0 ==> r == a % b
    ensures a < 0 ==> r <= 0
  {
    if a >= 0 then a % b else -((-a) % b)
  }

  /** The daily-mode step of `shiftPeriod`: `(selectedDayIndex + direction + 7) % 7`.
      Forward from Sunday wraps to Monday, backward from Monday wraps to Sunday. */
  function ShiftDay(i: DayIndex, direction: int): (r: DayIndex)
    requires direction == -1 || direction == 1
    ensures direction == 1 ==> r == if i == 6 then 0 else i + 1
    ensures direction == -1 ==> r == if i == 0 then 6 else i - 1
  {
    JsRemainder(i + direction + 7, 7)
  }

  /** `ShiftDay` applied `k` times in the same direction. */
  function ShiftDayTimes(i: DayIndex, direction: int, k: nat): DayIndex
    requires direction == -1 || direction == 1
  {
    if k == 0 then i else ShiftDay(ShiftDayTimes(i, direction, k - 1), direction)
  }

  /** A step back undoes a step forward, and the other way round. */
  lemma ShiftDayInverse(i: DayIndex, direction: int)
    requires direction == -1 || direction == 1
    ensures ShiftDay(ShiftDay(i, direction), -direction) == i
  {
  }

  lemma ModSucc(x: int)
    ensures (x + 1) % 7 == if x % 7 == 6 then 0 else x % 7 + 1
  {
    var q, m := x / 7, x % 7;
    assert x + 1 == 7 * q + (m + 1);
    if m == 6 {
      assert x + 1 == 7 * (q + 1);
    }
  }

  lemma ModPred(x: int)
    ensures (x - 1) % 7 == if x % 7 == 0 then 6 else x % 7 - 1
  {
    var q, m := x / 7, x % 7;
    assert x - 1 == 7 * q + (m - 1);
    if m == 0 {
      assert x - 1 == 7 * (q - 1) + 6;
    }
  }

  /** `k` steps forward land on day `(i + k) mod 7`. */
  lemma {:induction false} ShiftDayTimesForward(i: DayIndex, k: nat)
    ensures ShiftDayTimes(i, 1, k) == (i + k) % 7
  {
    if k > 0 {
      ShiftDayTimesForward(i, k - 1);
      ModSucc(i + k - 1);
    }
  }

  /** `k` steps backward land on day `(i - k) mod 7`. */
  lemma {:induction false} ShiftDayTimesBackward(i: DayIndex, k: nat)
    ensures ShiftDayTimes(i, -1, k) == (i - k) % 7
  {
    if k > 0 {
      ShiftDayTimesBackward(i, k - 1);
      ModPred(i - k + 1);
    }
  }

  lemma ModWeek(i: DayIndex)
    ensures (i + 7) % 7 == i && (i - 7) % 7 == i
  {
  }

  /** Seven steps in either direction come back to the starting day. */
  lemma ShiftDaySevenTimes(i: DayIndex, direction: int)
    requires direction == -1 || direction == 1
    ensures ShiftDayTimes(i, direction, 7) == i
  {
    ModWeek(i);
    if direction == 1 {
      ShiftDayTimesForward(i, 7);
    } else {
      ShiftDayTimesBackward(i, 7);
    }
  }

  /** `getDay` of a day number; 1970-01-01 was a Thursday. */
  function WeekdayOf(day: int): Weekday {
    (day + 4) % 7
  }

  /** `getWeekStart` on day numbers: the Monday of the week that contains `day`. */
  function WeekStart(day: int): (r: int)
    ensures MondayBasedIndex(WeekdayOf(r)) == 0
    ensures r <= day < r + 7
  {
    day - MondayBasedIndex(WeekdayOf(day))
  }

  /** Shifting the anchor by a week in weekly mode shifts the displayed week by exactly
      seven days. */
  lemma WeekStartShift(day: int, direction: int)
    requires direction == -1 || direction == 1
    ensures WeekStart(day + 7 * direction) == WeekStart(day) + 7 * direction
  {
    var d := day + 7 * direction;
    assert (d + 4) % 7 == (day + 4) % 7 by {
      if direction == 1 {
        assert d + 4 == (day + 4) + 7;
      } else {
        assert d + 4 == (day + 4) - 7;
      }
    }
  }

}

=== FILE: controller.dfy ===
/**
  The event wiring of the planner as one dispatch function: every button, click, form
  submit and drag event becomes an `Event`, and `Handle` routes it to the handler the
  program registers for it. The invariant `Valid` (unique, non-empty ids) survives every
  event, and the scenarios the program is built for are stated as lemmas.
 */
module Controller {

  import opened Options
  import opened Text
  import opened Tasks
  import opened App

  // ---------------------------------------------------------------------------
  // Clicks on the grid
  // ---------------------------------------------------------------------------

  /** The argument the empty-slot click handler passes to `openTaskDialog`, as written:
      `{ day, time: hour }`. The dialog reads `hour`, not `time`, so the clicked hour is lost. */
  function SlotClickPrefillAsWritten(day: Day, hour: Hour): (r: Prefill)
    ensures r.id.None? && r.day == Some(day)
    ensures r.hour.None?
  {
    Prefill(None, None, Some(day), None, None, None)
  }

  /** The argument the empty-slot click handler evidently means to pass: the clicked
      slot's day and hour, and no id (create mode). */
  function SlotClickPrefill(day: Day, hour: Hour): (r: Prefill)
    ensures r.id.None? && r.day == Some(day) && r.hour == Some(hour)
  {
    Prefill(None, None, Some(day), Some(hour), None, None)
  }

  /** As written, a click on any empty slot opens the form in create mode on the clicked
      day but at 08:00, whatever hour was clicked; so a click on Wednesday 15:00 shows 08:00. */
  lemma SlotClickAsWrittenLosesHour(s: State, day: Day, hour: Hour)
    ensures var dialog := OpenTaskDialog(s, SlotClickPrefillAsWritten(day, hour));
      && dialog.0.editingTaskId == None
      && dialog.1 == Fields("", day, DEFAULT_HOUR, DEFAULT_COLOR, Medium)
    ensures OpenTaskDialog(s, SlotClickPrefillAsWritten(2, 15)).1.hour == 8
  {
  }

  /** With the intended argument, a click on an empty slot opens the editor in create mode
      with that slot's day and hour, an empty title and the default colour and priority. */
  lemma SlotClickPrefillsSlot(s: State, day: Day, hour: Hour)
    ensures var dialog := OpenTaskDialog(s, SlotClickPrefill(day, hour));
      && dialog.0.editingTaskId == None
      && dialog.1 == Fields("", day, hour, DEFAULT_COLOR, Medium)
  {
  }

  /** A click on a task card opens the editor in edit mode on that task with the task's own
      fields (a task with an empty colour shows the default colour instead). */
  lemma CardClickOpensTask(s: State, t: Task)
    requires t.id != "" && t.color != ""
    ensures var dialog := OpenTaskDialog(s, PrefillOf(t));
      && dialog.0.editingTaskId == Some(t.id)
      && dialog.1 == Fields(t.title, t.day, t.hour, t.color, t.priority)
  {
  }

  // ---------------------------------------------------------------------------
  // Clicks on a card's "Done" text
  // ---------------------------------------------------------------------------

  /** A click on the "Done" text beside a card's checkbox, as written. The text belongs to
      the `<label>` around the checkbox, inside the card. The click on the label bubbles to
      the card, whose handler opens the editor on the task; the label then forwards a click
      to the checkbox, whose handler toggles the task. Only the checkbox's own click stops
      propagation, so the label's click reaches the card. */
  function DoneTextClickAsWritten(s: State, t: Task, checked: bool): (r: (State, Fields))
    ensures t.id != "" ==> r.0.editingTaskId == Some(t.id)
    ensures r.0.tasks == ToggleTaskComplete(s, t.id, checked).tasks
    ensures r.0.(tasks := s.tasks, editingTaskId := s.editingTaskId) == s
    ensures t.color != "" ==> r.1 == Fields(t.title, t.day, t.hour, t.color, t.priority)
  {
    var dialog := OpenTaskDialog(s, PrefillOf(t));
    (ToggleTaskComplete(dialog.0, t.id, checked), dialog.1)
  }

  /** A click on the "Done" text as evidently intended, the same as a click on the
      checkbox itself: the task is toggled and the editor stays as it was. */
  function DoneTextClickIntended(s: State, t: Task, checked: bool): (r: State)
    ensures r.editingTaskId == s.editingTaskId
    ensures r.tasks == ToggleTaskComplete(s, t.id, checked).tasks
    ensures r.(tasks := s.tasks, editingTaskId := s.editingTaskId) == s
    ensures Valid(s) ==> Valid(r)
  {
    ToggleKeepsValid(s, t.id, checked);
    ToggleTaskComplete(s, t.id, checked)
  }

  /** Both versions toggle the same task, but as written the click also opens the editor:
      a click on the "Done" text of a task that is not being edited changes
      `editingTaskId`, which the intended version never does. */
  lemma DoneTextClickOpensEditor(s: State, t: Task, checked: bool)
    requires t.id != "" && s.editingTaskId != Some(t.id)
    ensures DoneTextClickAsWritten(s, t, checked).0.tasks == DoneTextClickIntended(s, t, checked).tasks
    ensures DoneTextClickAsWritten(s, t, checked).0.editingTaskId != s.editingTaskId
    ensures DoneTextClickIntended(s, t, checked).editingTaskId == s.editingTaskId
  {
  }

  // ---------------------------------------------------------------------------
  // Dispatch
  // ---------------------------------------------------------------------------

  datatype Event =
    | ViewButton(view: View)                              // weekly / daily buttons
    | PeriodButton(direction: int)                        // previous (-1) / next (+1)
    | SlotClick(day: Day, hour: Hour)                     // click on a slot outside any card
    | CardClick(task: Task)                               // click on a task card
    | CheckboxClick(id: string, checked: bool)            // click on a card's checkbox
    | DoneTextClick(task: Task, checked: bool)            // click on the "Done" text beside it
    | Submit(form: Fields, freshId: string)               // editor form submitted
    | DeleteButton
    | CancelButton
    | CardDragStart(id: string)
    | CardDragEnd
    | SlotDrop(payload: string, day: Day, hour: Hour)     // drop with a text/plain payload

  /** What the program's own controls can produce: the period buttons pass -1 or +1, and
      the id generator yields an unused id. */
  predicate Allowed(s: State, e: Event) {
    match e
    case PeriodButton(direction) => direction == -1 || direction == 1
    case Submit(_, freshId) => FreshId(s, freshId)
    case _ => true
  }

  /** The state after one event, and the form contents when the event opened the editor. */
  datatype Outcome = Outcome(state: State, form: Option<Fields>)

  /** One event through the program's handlers, as the program wires them. A click on an
      empty slot opens create mode at 08:00 on the clicked day; a card click opens edit mode
      on the card's task; a click on the checkbox itself, a drag or a drop never touches
      `editingTaskId`, but a click on the "Done" text opens the editor as well as toggling;
      a cancel changes nothing; and a valid state stays valid. */
  function Handle(s: State, e: Event): (r: Outcome)
    requires Allowed(s, e)
    ensures e.SlotClick? ==>
      && r.state == s.(editingTaskId := None)
      && r.form == Some(Fields("", e.day, DEFAULT_HOUR, DEFAULT_COLOR, Medium))
    ensures e.CardClick? && e.task.id != "" ==> r.state == s.(editingTaskId := Some(e.task.id))
    ensures e.CardClick? && e.task.color != "" ==>
      r.form == Some(Fields(e.task.title, e.task.day, e.task.hour, e.task.color, e.task.priority))
    ensures e.DoneTextClick? && e.task.id != "" ==> r.state.editingTaskId == Some(e.task.id) && r.form.Some?
    ensures e.ViewButton? ==> r.state == SetView(s, e.view)
    ensures e.PeriodButton? ==> r.state == ShiftPeriod(s, e.direction)
    ensures e.CheckboxClick? ==> r.state == ToggleTaskComplete(s, e.id, e.checked)
    ensures e.Submit? ==> r.state == SaveTaskFromForm(s, e.form, e.freshId)
    ensures e.DeleteButton? ==> r.state == DeleteCurrentTask(s)
    ensures e.CardDragStart? ==> r.state == DragStart(s, e.id)
    ensures e.CardDragEnd? ==> r.state == DragEnd(s)
    ensures e.SlotDrop? ==> r.state == DropOnSlot(s, e.payload, e.day, e.hour)
    ensures (e.ViewButton? || e.PeriodButton? || e.CheckboxClick? || e.Submit? || e.DeleteButton? ||
             e.CancelButton? || e.CardDragStart? || e.CardDragEnd? || e.SlotDrop?) ==> r.form.None?
    ensures (e.CheckboxClick? || e.CardDragStart? || e.CardDragEnd? || e.SlotDrop? || e.ViewButton? ||
             e.PeriodButton?) ==>
      r.state.editingTaskId == s.editingTaskId && r.form.None?
    ensures e.CancelButton? ==> r.state == s
    ensures !(e.CheckboxClick? || e.DoneTextClick? || e.Submit? || e.DeleteButton? || e.SlotDrop?) ==>
      r.state.tasks == s.tasks
    ensures Valid(s) ==> Valid(r.state)
  {
    match e
    case ViewButton(view) => Outcome(SetView(s, view), None)
    case PeriodButton(direction) => Outcome(ShiftPeriod(s, direction), None)
    case SlotClick(day, hour) =>
      var dialog := OpenTaskDialog(s, SlotClickPrefillAsWritten(day, hour));
      Outcome(dialog.0, Some(dialog.1))
    case CardClick(task) =>
      var dialog := OpenTaskDialog(s, PrefillOf(task));
      Outcome(dialog.0, Some(dialog.1))
    case CheckboxClick(id, checked) =>
      ToggleKeepsValid(s, id, checked);
      Outcome(ToggleTaskComplete(s, id, checked), None)
    case DoneTextClick(task, checked) =>
      var both := DoneTextClickAsWritten(s, task, checked);
      ToggleKeepsValid(s, task.id, checked);
      Outcome(both.0, Some(both.1))
    case Submit(form, freshId) =>
      SaveKeepsValid(s, form, freshId);
      Outcome(SaveTaskFromForm(s, form, freshId), None)
    case DeleteButton =>
      DeleteKeepsValid(s);
      Outcome(DeleteCurrentTask(s), None)
    case CancelButton => Outcome(s, None)
    case CardDragStart(id) => Outcome(DragStart(s, id), None)
    case CardDragEnd => Outcome(DragEnd(s), None)
    case SlotDrop(payload, day, hour) =>
      DropKeepsValid(s, payload, day, hour);
      Outcome(DropOnSlot(s, payload, day, hour), None)
  }

  // ---------------------------------------------------------------------------
  // The invariant
  // ---------------------------------------------------------------------------

  lemma SaveKeepsValid(s: State, form: Fields, freshId: string)
    requires FreshId(s, freshId)
    ensures Valid(s) ==> Valid(SaveTaskFromForm(s, form, freshId))
  {
    if Valid(s) {
      var r := SaveTaskFromForm(s, form, freshId);
      if Trim(form.title) != [] && !Truthy(s.editingTaskId) {
        AppendKeepsUniqueIds(s.tasks, r.tasks[|s.tasks|]);
        assert r.tasks == s.tasks + [r.tasks[|s.tasks|]];
      }
    }
  }

  lemma DeleteKeepsValid(s: State)
    ensures Valid(s) ==> Valid(DeleteCurrentTask(s))
  {
    if Valid(s) && Truthy(s.editingTaskId) {
      RemoveAllKeepsUniqueIds(s.tasks, s.editingTaskId.value);
      var r := DeleteCurrentTask(s);
      forall j | 0 <= j < |r.tasks| ensures r.tasks[j].id != "" {
        assert r.tasks[j] in s.tasks;
      }
    }
  }

  lemma ToggleKeepsValid(s: State, id: string, completed: bool)
    ensures Valid(s) ==> Valid(ToggleTaskComplete(s, id, completed))
  {
  }

  lemma DropKeepsValid(s: State, payload: string, day: Day, hour: Hour)
    ensures Valid(s) ==> Valid(DropOnSlot(s, payload, day, hour))
  {
  }

  // ---------------------------------------------------------------------------
  // Scenarios
  // ---------------------------------------------------------------------------

  /** Opening a task and submitting the form untouched leaves the list as it was, provided
      the title is already trimmed and non-empty and the colour is set. */
  lemma EditUnchangedKeepsTasks(s: State, i: nat, freshId: string)
    requires Valid(s) && i < |s.tasks| && FreshId(s, freshId)
    requires Trim(s.tasks[i].title) == s.tasks[i].title != ""
    requires s.tasks[i].color != ""
    ensures var dialog := OpenTaskDialog(s, PrefillOf(s.tasks[i]));
      SaveTaskFromForm(dialog.0, dialog.1, freshId).tasks == s.tasks
  {
    var dialog := OpenTaskDialog(s, PrefillOf(s.tasks[i]));
    FirstMatchUnique(s.tasks, i);
    var r := SaveTaskFromForm(dialog.0, dialog.1, freshId);
    assert r.tasks[i] == s.tasks[i];
    assert forall j :: 0 <= j < |s.tasks| ==> r.tasks[j] == s.tasks[j];
  }

  /** Opening a task's card and pressing delete removes exactly that task, keeps the order
      of the others and ends edit mode. */
  lemma OpenThenDeleteRemovesTask(s: State, i: nat)
    requires Valid(s) && i < |s.tasks|
    ensures var r := DeleteCurrentTask(OpenTaskDialog(s, PrefillOf(s.tasks[i])).0);
      && r.tasks == s.tasks[..i] + s.tasks[i + 1..]
      && r.editingTaskId == None
  {
    RemoveUnique(s.tasks, i);
  }

  /** Dropping a task onto a slot with its id as the transfer payload moves that task and
      only it; when it was alone in its old slot and the new slot differs, the old slot is
      empty afterwards. */
  lemma DropMovesTask(s: State, i: nat, day: Day, hour: Hour)
    requires Valid(s) && i < |s.tasks|
    ensures var r := DropOnSlot(s, s.tasks[i].id, day, hour);
      ReplacedAt(s.tasks, r.tasks, i, s.tasks[i].(day := day, hour := hour))
    ensures var r := DropOnSlot(s, s.tasks[i].id, day, hour);
      var t := s.tasks[i];
      (t.day, t.hour) != (day, hour) &&
      (forall j :: 0 <= j < |s.tasks| && j != i ==> (s.tasks[j].day, s.tasks[j].hour) != (t.day, t.hour))
      ==> GetTaskAt(r.tasks, t.day, t.hour).None?
  {
    FirstMatchUnique(s.tasks, i);
  }

  /** A drop whose transfer payload is empty falls back to the task recorded at drag start. */
  lemma DragFallbackMovesTask(s: State, i: nat, day: Day, hour: Hour)
    requires Valid(s) && i < |s.tasks|
    ensures var r := DropOnSlot(DragStart(s, s.tasks[i].id), "", day, hour);
      ReplacedAt(s.tasks, r.tasks, i, s.tasks[i].(day := day, hour := hour))
  {
    FirstMatchUnique(s.tasks, i);
  }

  /** Ticking a box back to the task's former value restores the state. */
  lemma ToggleUndo(s: State, i: nat, completed: bool)
    requires Valid(s) && i < |s.tasks|
    ensures var id := s.tasks[i].id;
      ToggleTaskComplete(ToggleTaskComplete(s, id, completed), id, s.tasks[i].completed) == s
  {
    var id := s.tasks[i].id;
    FirstMatchUnique(s.tasks, i);
    var s1 := ToggleTaskComplete(s, id, completed);
    FirstMatchSameIds(s.tasks, s1.tasks, id);
    var s2 := ToggleTaskComplete(s1, id, s.tasks[i].completed);
    assert s2.tasks == s.tasks;
  }

  /** Of two moves of the same task, only the last one shows. */
  lemma MoveLastWins(s: State, id: string, d1: Day, h1: Hour, d2: Day, h2: Hour)
    ensures MoveTask(MoveTask(s, id, d1, h1), id, d2, h2) == MoveTask(s, id, d2, h2)
  {
    var s1 := MoveTask(s, id, d1, h1);
    FirstMatchSameIds(s.tasks, s1.tasks, id);
    assert MoveTask(s1, id, d2, h2).tasks == MoveTask(s, id, d2, h2).tasks;
  }

  /** Two tasks in one slot: the earlier one is the one the slot shows; each can still be
      found by its id; deleting the earlier one uncovers the later one when no third task
      shares the slot. */
  lemma SharedSlotEarlierWins(s: State, i: nat, k: nat)
    requires Valid(s) && i < k < |s.tasks|
    requires s.tasks[i].day == s.tasks[k].day && s.tasks[i].hour == s.tasks[k].hour
    requires forall j :: 0 <= j < k && j != i ==> !(s.tasks[j].day == s.tasks[i].day && s.tasks[j].hour == s.tasks[i].hour)
    ensures GetTaskAt(s.tasks, s.tasks[i].day, s.tasks[i].hour) == Some(s.tasks[i])
    ensures FirstMatch(s.tasks, ById(s.tasks[i].id)) == Some(i)
    ensures FirstMatch(s.tasks, ById(s.tasks[k].id)) == Some(k)
    ensures var r := DeleteCurrentTask(OpenTaskDialog(s, PrefillOf(s.tasks[i])).0);
      GetTaskAt(r.tasks, s.tasks[i].day, s.tasks[i].hour) == Some(s.tasks[k])
  {
    FirstMatchUnique(s.tasks, i);
    FirstMatchUnique(s.tasks, k);
    GetTaskAtEarliest(s.tasks, i);
    RemoveUncovers(s.tasks, i, k);
  }

}

=== FILE: grid.dfy ===
/**
  `renderGrid` and `renderHeaderLabel` as a projection of the state onto an abstract
  surface: a header label, a corner cell, 24 hour labels, and one row per visible day
  holding 24 cells, each with the card of the task that occupies it, if any.
 */
module Grid {

  import opened Options
  import opened Text
  import opened Calendar
  import opened Tasks
  import opened App

  const DAY_NAMES: seq<string> := ["Monday", "Tuesday", "Wednesday", "Thursday", "Friday", "Saturday", "Sunday"]
  const CORNER: string := "Day / Time"

  /** What a task card shows: the escaped title, the upper-case priority, the "HH:00" time,
      the checkbox state and the background colour; the id identifies it for clicks and drags. */
  datatype Card = Card(
    id: string,
    titleHtml: string,
    priority: Priority,
    priorityLabel: string,
    timeLabel: string,
    checked: bool,
    background: string)

  datatype Cell = Cell(day: Day, hour: Hour, card: Option<Card>)

  datatype Row = Row(day: Day, dayName: string, cells: seq<Cell>)

  /** The range label: the week's Monday and Sunday (as day numbers; their formatting is not
      modelled) in weekly view, the selected day's name in daily view. */
  datatype Header = WeekRange(monday: int, sunday: int) | DayName(name: string)

  datatype Surface = Surface(header: Header, corner: string, timeLabels: seq<string>, rows: seq<Row>)

  /** `priority.toUpperCase()`. */
  function PriorityLabel(p: Priority): (r: string)
    ensures r == UpperAscii(PriorityName(p))
  {
    match p
    case Low => "LOW"
    case Medium => "MEDIUM"
    case High => "HIGH"
  }

  /** Different priorities never share a label. */
  lemma PriorityLabelInjective(p: Priority, q: Priority)
    ensures PriorityLabel(p) == PriorityLabel(q) ==> p == q
  {
  }

  /** `${pad2(hour)}:00`: two digits that read back as the hour, then ":00". */
  function TimeLabel(hour: Hour): (r: string)
    ensures |r| == 5 && r[2..] == ":00"
    ensures forall i :: 0 <= i < 2 ==> IsDigit(r[i])
    ensures DecimalValue(r[..2]) == hour
  {
    Pad2RoundTrip(hour);
    var r := Pad2(hour) + ":00";
    assert r[..2] == Pad2(hour);
    r
  }

  /** `createTaskElement` without the DOM: the card shows the task's title escaped so that it
      cannot inject markup and yet decodes back to the title. */
  function CardOf(t: Task): (c: Card)
    ensures c.id == t.id && c.checked == t.completed && c.background == t.color && c.priority == t.priority
    ensures '<' !in c.titleHtml && '>' !in c.titleHtml && '"' !in c.titleHtml && '\'' !in c.titleHtml
    ensures Unescape(c.titleHtml) == t.title
    ensures c.timeLabel == TimeLabel(t.hour)
    ensures c.priorityLabel == PriorityLabel(t.priority)
  {
    UnescapeEscapeHtml(t.title);
    Card(t.id, EscapeHtml(t.title), t.priority, PriorityLabel(t.priority), TimeLabel(t.hour), t.completed, t.color)
  }

  /** The card a slot shows: that of the task `getTaskAt` finds there. */
  function SlotCard(tasks: seq<Task>, day: Day, hour: Hour): (r: Option<Card>)
    ensures r.None? <==> forall j :: 0 <= j < |tasks| ==> !(tasks[j].day == day && tasks[j].hour == hour)
    ensures r.Some? ==>
      exists i :: 0 <= i < |tasks| && r.value == CardOf(tasks[i]) &&
        tasks[i].day == day && tasks[i].hour == hour &&
        forall j :: 0 <= j < i ==> !(tasks[j].day == day && tasks[j].hour == hour)
  {
    match GetTaskAt(tasks, day, hour)
    case None => None
    case Some(t) => Some(CardOf(t))
  }

  /** The days that get a row: all seven, Monday first, in weekly view; only the selected
      day in daily view. */
  function VisibleDays(s: State): (r: seq<Day>)
    ensures |r| == if s.currentView == Weekly then 7 else 1
    ensures forall d: Day :: d in r <==> (s.currentView == Weekly || d == s.selectedDayIndex)
    ensures forall a, b :: 0 <= a < b < |r| ==> r[a] < r[b]
  {
    if s.currentView == Weekly then [0, 1, 2, 3, 4, 5, 6] else [s.selectedDayIndex]
  }

  /** One day's row: its label and the 24 hour cells in order. */
  function RenderRow(tasks: seq<Task>, day: Day): (row: Row)
    ensures row.day == day && row.dayName == DAY_NAMES[day] && |row.cells| == 24
    ensures forall h :: 0 <= h < 24 ==> row.cells[h].day == day && row.cells[h].hour == h
  {
    Row(day, DAY_NAMES[day], seq(24, (h: int) requires 0 <= h < 24 => Cell(day, h, SlotCard(tasks, day, h))))
  }

  function RenderHeaderLabel(s: State): (r: Header)
    ensures s.currentView == Weekly ==>
      && r.WeekRange?
      && MondayBasedIndex(WeekdayOf(r.monday)) == 0
      && r.monday <= s.anchorDay < r.monday + 7
      && r.sunday == r.monday + 6
    ensures s.currentView == Daily ==> r == DayName(DAY_NAMES[s.selectedDayIndex])
  {
    if s.currentView == Weekly then
      var monday := WeekStart(s.anchorDay);
      WeekRange(monday, monday + 6)
    else
      DayName(DAY_NAMES[s.selectedDayIndex])
  }

  /** `render`: the header label, the corner, the hour labels 00:00 … 23:00, and a row per
      visible day in which every cell carries the card of the earliest task in its slot. */
  function Render(s: State): (r: Surface)
    ensures r.header == RenderHeaderLabel(s)
    ensures r.corner == CORNER
    ensures |r.timeLabels| == 24 && forall h :: 0 <= h < 24 ==> r.timeLabels[h] == TimeLabel(h)
    ensures |r.rows| == |VisibleDays(s)|
    ensures forall k :: 0 <= k < |r.rows| ==>
      && r.rows[k].day == VisibleDays(s)[k]
      && r.rows[k].dayName == DAY_NAMES[r.rows[k].day]
      && |r.rows[k].cells| == 24
    ensures forall k, h :: 0 <= k < |r.rows| && 0 <= h < 24 ==>
      && r.rows[k].cells[h].day == r.rows[k].day
      && r.rows[k].cells[h].hour == h
      && r.rows[k].cells[h].card == SlotCard(s.tasks, r.rows[k].day, h)
  {
    var days := VisibleDays(s);
    Surface(
      RenderHeaderLabel(s),
      CORNER,
      seq(24, (h: int) requires 0 <= h < 24 => TimeLabel(h)),
      seq(|days|, (k: int) requires 0 <= k < |days| => RenderRow(s.tasks, days[k])))
  }

  /** With unique ids, a task's card is what a slot shows exactly when the slot is the
      task's own and no earlier task occupies it. */
  lemma SlotCardPlacement(tasks: seq<Task>, i: nat, day: Day, hour: Hour)
    requires UniqueIds(tasks) && i < |tasks|
    ensures SlotCard(tasks, day, hour) == Some(CardOf(tasks[i])) <==>
      && day == tasks[i].day && hour == tasks[i].hour
      && forall j :: 0 <= j < i ==> !(tasks[j].day == day && tasks[j].hour == hour)
  {
    var card := SlotCard(tasks, day, hour);
    if card == Some(CardOf(tasks[i])) {
      var m :| 0 <= m < |tasks| && card.value == CardOf(tasks[m]) &&
        tasks[m].day == day && tasks[m].hour == hour &&
        forall j :: 0 <= j < m ==> !(tasks[j].day == day && tasks[j].hour == hour);
      assert tasks[m].id == CardOf(tasks[m]).id == CardOf(tasks[i]).id == tasks[i].id;
      assert m == i;
    }
    if day == tasks[i].day && hour == tasks[i].hour && forall j :: 0 <= j < i ==> !(tasks[j].day == day && tasks[j].hour == hour) {
      GetTaskAtEarliest(tasks, i);
    }
  }

  /** In weekly view, with unique ids, a task's card appears in a cell exactly when the cell
      is the task's own slot and no earlier task occupies that slot. */
  lemma CardPlacement(s: State, i: nat, k: nat, h: nat)
    requires Valid(s) && s.currentView == Weekly
    requires i < |s.tasks| && k < 7 && h < 24
    ensures Render(s).rows[k].cells[h].card == Some(CardOf(s.tasks[i])) <==>
      && k == s.tasks[i].day && h == s.tasks[i].hour
      && forall j :: 0 <= j < i ==> !(s.tasks[j].day == k && s.tasks[j].hour == h)
  {
    var r := Render(s);
    assert r.rows[k].day == k;
    assert r.rows[k].cells[h].card == SlotCard(s.tasks, k, h);
    SlotCardPlacement(s.tasks, i, k, h);
  }

  /** In daily view the grid is the selected day's single row. */
  lemma DailyShowsSelectedDay(s: State)
    requires s.currentView == Daily
    ensures |Render(s).rows| == 1
    ensures Render(s).rows[0].day == s.selectedDayIndex
    ensures Render(s).header == DayName(DAY_NAMES[s.selectedDayIndex])
  {
  }

  /** Creating the first task ("Standup", Monday 09:00, say) yields a one-task list whose
      task is uncompleted, carries the new id, and shows in the weekly grid at its slot. */
  lemma CreateFirstTaskShows(s: State, form: Fields, freshId: string)
    requires s.tasks == [] && !Truthy(s.editingTaskId) && s.currentView == Weekly
    requires FreshId(s, freshId) && Trim(form.title) != []
    ensures var r := SaveTaskFromForm(s, form, freshId);
      && |r.tasks| == 1
      && r.tasks[0].id == freshId && !r.tasks[0].completed && r.tasks[0].title == Trim(form.title)
      && Render(r).rows[form.day].cells[form.hour].card == Some(CardOf(r.tasks[0]))
  {
    var r := SaveTaskFromForm(s, form, freshId);
    assert r.tasks == [r.tasks[0]];
    GetTaskAtEarliest(r.tasks, 0);
    var surface := Render(r);
    assert surface.rows[form.day].day == form.day;
    assert surface.rows[form.day].cells[form.hour].card == SlotCard(r.tasks, form.day, form.hour);
  }

}

=== FILE: options.dfy ===
/** The optional value the model uses wherever the program uses `null` or an absent property. */
module Options {

  datatype Option<+T> = None | Some(value: T)

}

=== FILE: tasks.dfy ===
/**
  The task list: an ordered sequence of task records, searched front to back as
  `Array.prototype.find` does, updated in place at the first match and filtered on delete.
  The list never enforces one task per (day, hour) slot.
 */
module Tasks {

  import opened Options
  import Calendar

  type Day = Calendar.DayIndex

  /** An hour-of-day column of the grid. */
  type Hour = h: int | 0 <= h < 24

  datatype Priority = Low | Medium | High

  /** The priority as the form's select and the stored task spell it. */
  function PriorityName(p: Priority): string {
    match p
    case Low => "low"
    case Medium => "medium"
    case High => "high"
  }

  datatype Task = Task(
    id: string,
    title: string,
    day: Day,
    hour: Hour,
    color: string,
    priority: Priority,
    completed: bool)

  /** The editable fields of a task: what the editor form holds and what a save copies
      onto the task. */
  datatype Fields = Fields(title: string, day: Day, hour: Hour, color: string, priority: Priority)

  /** The two searches the program performs: by id, and by slot. */
  datatype Key = ById(id: string) | AtSlot(day: Day, hour: Hour)

  predicate Matches(t: Task, key: Key) {
    match key
    case ById(id) => t.id == id
    case AtSlot(day, hour) => t.day == day && t.hour == hour
  }

  /** The position `find` stops at: the first task matching `key`, or none. */
  function FirstMatch(tasks: seq<Task>, key: Key): (r: Option<nat>)
    ensures r.Some? ==> r.value < |tasks| && Matches(tasks[r.value], key)
    ensures r.Some? ==> forall j :: 0 <= j < r.value ==> !Matches(tasks[j], key)
    ensures r.None? <==> forall j :: 0 <= j < |tasks| ==> !Matches(tasks[j], key)
  {
    if tasks == [] then None
    else if Matches(tasks[0], key) then Some(0)
    else match FirstMatch(tasks[1..], key)
      case None => None
      case Some(i) => Some(i + 1)
  }

  /** `getTaskAt`: the task that occupies a slot is the earliest one in list order whose day
      and hour both match; when none matches the slot is empty. */
  function GetTaskAt(tasks: seq<Task>, day: Day, hour: Hour): (r: Option<Task>)
    ensures r.None? <==> forall j :: 0 <= j < |tasks| ==> !(tasks[j].day == day && tasks[j].hour == hour)
    ensures r.Some? ==> r.value.day == day && r.value.hour == hour
    ensures r.Some? ==>
      exists i :: 0 <= i < |tasks| && tasks[i] == r.value &&
        forall j :: 0 <= j < i ==> !(tasks[j].day == day && tasks[j].hour == hour)
  {
    match FirstMatch(tasks, AtSlot(day, hour))
    case None => None
    case Some(i) => Some(tasks[i])
  }

  /** No two tasks share an id: what `crypto.randomUUID` secures for the program. */
  predicate UniqueIds(tasks: seq<Task>) {
    forall i, j :: 0 <= i < j < |tasks| ==> tasks[i].id != tasks[j].id
  }

  /** `after` is `before` with position `i` replaced by `t`; length and every other
      position are unchanged. */
  predicate ReplacedAt(before: seq<Task>, after: seq<Task>, i: nat, t: Task) {
    && |after| == |before|
    && i < |before|
    && after[i] == t
    && forall j :: 0 <= j < |before| && j != i ==> after[j] == before[j]
  }

  /** The three in-place mutations the program applies to a task found by id. */
  datatype Change =
    | Assign(fields: Fields)      // `Object.assign(task, payload)` when saving an edit
    | Place(day: Day, hour: Hour) // `moveTask`
    | SetDone(completed: bool)    // `toggleTaskComplete`

  /** One mutation applied to one task. The id never changes; an edit keeps the
      completion flag, a move changes only the slot, a toggle only the flag. */
  function Apply(t: Task, change: Change): (r: Task)
    ensures r.id == t.id
    ensures change.Assign? ==>
      && r.completed == t.completed
      && Fields(r.title, r.day, r.hour, r.color, r.priority) == change.fields
    ensures change.Place? ==>
      && r.day == change.day && r.hour == change.hour
      && r.title == t.title && r.color == t.color && r.priority == t.priority && r.completed == t.completed
    ensures change.SetDone? ==>
      && r.completed == change.completed
      && r.title == t.title && r.day == t.day && r.hour == t.hour && r.color == t.color && r.priority == t.priority
  {
    match change
    case Assign(f) => t.(title := f.title, day := f.day, hour := f.hour, color := f.color, priority := f.priority)
    case Place(day, hour) => t.(day := day, hour := hour)
    case SetDone(completed) => t.(completed := completed)
  }

  /** Find the first task with id `id` and mutate it; an unknown id leaves the list as it is. */
  function UpdateFirst(tasks: seq<Task>, id: string, change: Change): (r: seq<Task>)
    ensures |r| == |tasks|
    ensures forall j :: 0 <= j < |tasks| ==> r[j].id == tasks[j].id
    ensures FirstMatch(tasks, ById(id)).None? ==> r == tasks
    ensures FirstMatch(tasks, ById(id)).Some? ==>
      var i := FirstMatch(tasks, ById(id)).value;
      ReplacedAt(tasks, r, i, Apply(tasks[i], change))
  {
    match FirstMatch(tasks, ById(id))
    case None => tasks
    case Some(i) => tasks[i := Apply(tasks[i], change)]
  }

  /** `tasks.filter(task => task.id !== id)`: exactly the tasks with another id survive. */
  function RemoveAll(tasks: seq<Task>, id: string): (r: seq<Task>)
    ensures |r| <= |tasks|
    ensures forall t :: t in r <==> t in tasks && t.id != id
    ensures (forall j :: 0 <= j < |tasks| ==> tasks[j].id != id) ==> r == tasks
  {
    if tasks == [] then []
    else if tasks[0].id == id then RemoveAll(tasks[1..], id)
    else [tasks[0]] + RemoveAll(tasks[1..], id)
  }

  /** Removal works piecewise, so the survivors keep their relative order. */
  lemma {:induction false} RemoveAllConcat(a: seq<Task>, b: seq<Task>, id: string)
    ensures RemoveAll(a + b, id) == RemoveAll(a, id) + RemoveAll(b, id)
  {
    if a == [] {
      assert a + b == b;
    } else {
      assert (a + b)[0] == a[0];
      assert (a + b)[1..] == a[1..] + b;
      RemoveAllConcat(a[1..], b, id);
    }
  }

  lemma RemoveHead(t: Task, back: seq<Task>)
    requires forall j :: 0 <= j < |back| ==> back[j].id != t.id
    ensures RemoveAll([t] + back, t.id) == back
  {
    RemoveAllConcat([t], back, t.id);
    assert [t][1..] == [];
  }

  /** With unique ids, deleting the id of the task at position `i` removes that one task and
      closes the gap. */
  lemma RemoveUnique(tasks: seq<Task>, i: nat)
    requires UniqueIds(tasks) && i < |tasks|
    ensures RemoveAll(tasks, tasks[i].id) == tasks[..i] + tasks[i + 1..]
  {
    var id := tasks[i].id;
    RemoveOnly(tasks, i, id);
  }

  lemma RemoveOnly(tasks: seq<Task>, i: nat, id: string)
    requires i < |tasks| && tasks[i].id == id
    requires forall j :: 0 <= j < |tasks| && j != i ==> tasks[j].id != id
    ensures RemoveAll(tasks, id) == tasks[..i] + tasks[i + 1..]
  {
    var front, back := tasks[..i], tasks[i + 1..];
    assert RemoveAll(front, id) == front by {
      assert forall j :: 0 <= j < |front| ==> front[j] == tasks[j];
    }
    assert RemoveAll([tasks[i]] + back, id) == back by {
      assert forall j :: 0 <= j < |back| ==> back[j] == tasks[i + 1 + j];
      RemoveHead(tasks[i], back);
    }
    RemoveAllConcat(front, [tasks[i]] + back, id);
    assert tasks == front + ([tasks[i]] + back);
  }

  /** Updates keep ids, so they keep ids unique. */
  lemma UpdateFirstKeepsUniqueIds(tasks: seq<Task>, id: string, change: Change)
    requires UniqueIds(tasks)
    ensures UniqueIds(UpdateFirst(tasks, id, change))
  {
  }

  /** Removing tasks keeps ids unique. */
  lemma {:induction false} RemoveAllKeepsUniqueIds(tasks: seq<Task>, id: string)
    requires UniqueIds(tasks)
    ensures UniqueIds(RemoveAll(tasks, id))
  {
    if tasks != [] {
      RemoveAllKeepsUniqueIds(tasks[1..], id);
      var rest := RemoveAll(tasks[1..], id);
      if tasks[0].id != id {
        assert forall t :: t in rest ==> t in tasks[1..];
        assert forall j :: 0 <= j < |rest| ==> rest[j] in tasks[1..];
      }
    }
  }

  /** Appending a task whose id is new keeps ids unique. */
  lemma AppendKeepsUniqueIds(tasks: seq<Task>, t: Task)
    requires UniqueIds(tasks)
    requires forall j :: 0 <= j < |tasks| ==> tasks[j].id != t.id
    ensures UniqueIds(tasks + [t])
  {
  }

  /** With unique ids, the first task with a given id is the only one. */
  lemma FirstMatchUnique(tasks: seq<Task>, i: nat)
    requires UniqueIds(tasks) && i < |tasks|
    ensures FirstMatch(tasks, ById(tasks[i].id)) == Some(i)
  {
  }

  /** The search by id only looks at ids, so two lists with the same ids position by
      position stop at the same place. */
  lemma {:induction false} FirstMatchSameIds(a: seq<Task>, b: seq<Task>, id: string)
    requires |a| == |b|
    requires forall j :: 0 <= j < |a| ==> a[j].id == b[j].id
    ensures FirstMatch(a, ById(id)) == FirstMatch(b, ById(id))
  {
    if a != [] {
      FirstMatchSameIds(a[1..], b[1..], id);
    }
  }

  /** The slot shows the task at `k` exactly when `k` is the earliest position in that slot. */
  lemma GetTaskAtEarliest(tasks: seq<Task>, k: nat)
    requires k < |tasks|
    requires forall j :: 0 <= j < k ==> !(tasks[j].day == tasks[k].day && tasks[j].hour == tasks[k].hour)
    ensures GetTaskAt(tasks, tasks[k].day, tasks[k].hour) == Some(tasks[k])
  {
    assert FirstMatch(tasks, AtSlot(tasks[k].day, tasks[k].hour)) == Some(k);
  }

  /** Two tasks share a slot and no third task precedes the later one there: removing the
      earlier one uncovers the later one. */
  lemma RemoveUncovers(tasks: seq<Task>, i: nat, k: nat)
    requires UniqueIds(tasks) && i < k < |tasks|
    requires tasks[i].day == tasks[k].day && tasks[i].hour == tasks[k].hour
    requires forall j :: 0 <= j < k && j != i ==> !(tasks[j].day == tasks[k].day && tasks[j].hour == tasks[k].hour)
    ensures GetTaskAt(RemoveAll(tasks, tasks[i].id), tasks[k].day, tasks[k].hour) == Some(tasks[k])
  {
    RemoveUnique(tasks, i);
    var r := tasks[..i] + tasks[i + 1..];
    SkipIndex(tasks, i, k - 1);
    forall j | 0 <= j < k - 1
      ensures !(r[j].day == r[k - 1].day && r[j].hour == r[k - 1].hour)
    {
      SkipIndex(tasks, i, j);
    }
    GetTaskAtEarliest(r, k - 1);
  }

  /** Position `j` of the list without position `i`. */
  lemma SkipIndex(tasks: seq<Task>, i: nat, j: nat)
    requires i < |tasks| && j < |tasks| - 1
    ensures (tasks[..i] + tasks[i + 1..])[j] == tasks[if j < i then j else j + 1]
  {
  }

}

=== FILE: text.dfy ===
/**
  The string helpers of the planner: ECMAScript's `String.prototype.trim` (applied to the
  title typed into the editor), `escapeHtml` (applied to a title before it is placed into
  markup) and `pad2` (used for the "HH:00" labels).
 */
module Text {

  // ---------------------------------------------------------------------------
  // trim
  // ---------------------------------------------------------------------------

  /** The characters `trim` strips: ECMAScript WhiteSpace (tab, vertical tab, form feed,
      space, no-break space, byte order mark and every other Unicode space separator)
      and LineTerminator (line feed, carriage return, line and paragraph separators). */
  predicate IsJsWhitespace(c: char) {
    || c == '\U{9}' || c == '\U{B}' || c == '\U{C}' || c == ' ' || c == '\U{A0}' || c == '\U{FEFF}'
    || c == '\U{1680}' || ('\U{2000}' <= c <= '\U{200A}') || c == '\U{202F}' || c == '\U{205F}'
    || c == '\U{3000}'
    || c == '\n' || c == '\r' || c == '\U{2028}' || c == '\U{2029}'
  }

  /** Where the content of `s` begins: the index of the first non-space character at or
      after `from`, or `|s|` when there is none. */
  function ContentStart(s: string, from: nat): (k: nat)
    requires from <= |s|
    requires forall i :: 0 <= i < from ==> IsJsWhitespace(s[i])
    ensures from <= k <= |s|
    ensures forall i :: 0 <= i < k ==> IsJsWhitespace(s[i])
    ensures k < |s| ==> !IsJsWhitespace(s[k])
    decreases |s| - from
  {
    if from == |s| || !IsJsWhitespace(s[from]) then from else ContentStart(s, from + 1)
  }

  /** Where the content of `s` ends: the index just after the last non-space character
      before `upTo` and not before `k`, or `k` when there is none. */
  function ContentEnd(s: string, k: nat, upTo: nat): (e: nat)
    requires k <= upTo <= |s|
    requires forall i :: upTo <= i < |s| ==> IsJsWhitespace(s[i])
    ensures k <= e <= upTo
    ensures forall i :: e <= i < |s| ==> IsJsWhitespace(s[i])
    ensures e > k ==> !IsJsWhitespace(s[e - 1])
    decreases upTo
  {
    if upTo == k || !IsJsWhitespace(s[upTo - 1]) then upTo else ContentEnd(s, k, upTo - 1)
  }

  /** `s` without its leading and trailing white space: the result is the stretch of `s`
      between a white-space prefix and a white-space suffix, begins and ends with a
      non-space character, and is empty exactly when `s` is all white space. */
  function Trim(s: string): (r: string)
    ensures ContentStart(s, 0) + |r| <= |s|
    ensures r == s[ContentStart(s, 0)..ContentStart(s, 0) + |r|]
    ensures forall i :: 0 <= i < ContentStart(s, 0) ==> IsJsWhitespace(s[i])
    ensures forall i :: ContentStart(s, 0) + |r| <= i < |s| ==> IsJsWhitespace(s[i])
    ensures r != [] ==> !IsJsWhitespace(r[0]) && !IsJsWhitespace(r[|r| - 1])
    ensures r == [] <==> forall i :: 0 <= i < |s| ==> IsJsWhitespace(s[i])
  {
    var k := ContentStart(s, 0);
    var e := ContentEnd(s, k, |s|);
    s[k..e]
  }

  /** Trimming twice is trimming once. */
  lemma TrimIdempotent(s: string)
    ensures Trim(Trim(s)) == Trim(s)
  {
    var r := Trim(s);
    if r != [] {
      assert ContentStart(r, 0) == 0;
      assert ContentEnd(r, 0, |r|) == |r|;
    }
  }

  // ---------------------------------------------------------------------------
  // escapeHtml
  // ---------------------------------------------------------------------------

  /** `s.replaceAll(c, rep)` for a one-character pattern: every occurrence of `c`,
      scanned left to right, is replaced by `rep`; nothing else changes. */
  function ReplaceAll(s: string, c: char, rep: string): (r: string)
    ensures forall x :: x in r ==> x in rep || (x in s && x != c)
    ensures c !in s ==> r == s
  {
    if s == [] then []
    else (if s[0] == c then rep else [s[0]]) + ReplaceAll(s[1..], c, rep)
  }

  /** The five `replaceAll` passes of `escapeHtml`, ampersand first. The result holds no
      markup-significant quote or angle bracket. */
  function EscapeHtml(s: string): (r: string)
    ensures '<' !in r && '>' !in r && '"' !in r && '\'' !in r
  {
    var amp := ReplaceAll(s, '&', "&amp;");
    var lt := ReplaceAll(amp, '<', "&lt;");
    assert '<' !in lt by { assert '<' !in "&lt;"; }
    var gt := ReplaceAll(lt, '>', "&gt;");
    assert '<' !in gt && '>' !in gt by { assert '<' !in "&gt;" && '>' !in "&gt;"; }
    var quot := ReplaceAll(gt, '"', "&quot;");
    assert '<' !in quot && '>' !in quot && '"' !in quot by {
      assert '<' !in "&quot;" && '>' !in "&quot;" && '"' !in "&quot;";
    }
    var r := ReplaceAll(quot, '\'', "&#039;");
    assert '<' !in r && '>' !in r && '"' !in r && '\'' !in r by {
      assert '<' !in "&#039;" && '>' !in "&#039;" && '"' !in "&#039;" && '\'' !in "&#039;";
    }
    r
  }

  /** The entity that stands for one character in escaped text. */
  function EscapeChar(c: char): string {
    match c
    case '&' => "&amp;"
    case '<' => "&lt;"
    case '>' => "&gt;"
    case '"' => "&quot;"
    case '\'' => "&#039;"
    case _ => [c]
  }

  /** The reference escaping: each character of `s` replaced by its entity in one pass. */
  function EscapeEach(s: string): string {
    if s == [] then [] else EscapeChar(s[0]) + EscapeEach(s[1..])
  }

  /** The decoding that inverts `EscapeEach`: the five entities back to their characters. */
  function Unescape(s: string): string
    decreases |s|
  {
    if s == [] then []
    else if s[0] != '&' then [s[0]] + Unescape(s[1..])
    else if "&amp;" <= s then "&" + Unescape(s[5..])
    else if "&lt;" <= s then "<" + Unescape(s[4..])
    else if "&gt;" <= s then ">" + Unescape(s[4..])
    else if "&quot;" <= s then "\"" + Unescape(s[6..])
    else if "&#039;" <= s then "'" + Unescape(s[6..])
    else [s[0]] + Unescape(s[1..])
  }

  lemma {:induction false} ReplaceAllConcat(a: string, b: string, c: char, rep: string)
    ensures ReplaceAll(a + b, c, rep) == ReplaceAll(a, c, rep) + ReplaceAll(b, c, rep)
  {
    if a == [] {
      assert a + b == b;
    } else {
      assert (a + b)[0] == a[0];
      assert (a + b)[1..] == a[1..] + b;
      ReplaceAllConcat(a[1..], b, c, rep);
    }
  }

  /** Escaping a concatenation escapes each part. */
  lemma EscapeHtmlConcat(a: string, b: string)
    ensures EscapeHtml(a + b) == EscapeHtml(a) + EscapeHtml(b)
  {
    var amp := ReplaceAll(a, '&', "&amp;");
    var lt := ReplaceAll(amp, '<', "&lt;");
    var gt := ReplaceAll(lt, '>', "&gt;");
    var quot := ReplaceAll(gt, '"', "&quot;");
    var amp' := ReplaceAll(b, '&', "&amp;");
    var lt' := ReplaceAll(amp', '<', "&lt;");
    var gt' := ReplaceAll(lt', '>', "&gt;");
    var quot' := ReplaceAll(gt', '"', "&quot;");
    ReplaceAllConcat(a, b, '&', "&amp;");
    ReplaceAllConcat(amp, amp', '<', "&lt;");
    ReplaceAllConcat(lt, lt', '>', "&gt;");
    ReplaceAllConcat(gt, gt', '"', "&quot;");
    ReplaceAllConcat(quot, quot', '\'', "&#039;");
  }

  /** On one character the five passes produce exactly that character's entity: an entity
      inserted by an earlier pass is never touched by a later one. */
  lemma ReplaceAllOne(x: char, c: char, rep: string)
    ensures ReplaceAll([x], c, rep) == if x == c then rep else [x]
  {
    assert [x][1..] == [];
  }

  lemma EscapeHtmlChar(c: char)
    ensures EscapeHtml([c]) == EscapeChar(c)
  {
    ReplaceAllOne(c, '&', "&amp;");
    var amp := ReplaceAll([c], '&', "&amp;");
    if c == '&' {
      assert '<' !in amp && '>' !in amp && '"' !in amp && '\'' !in amp;
      return;
    }
    ReplaceAllOne(c, '<', "&lt;");
    var lt := ReplaceAll(amp, '<', "&lt;");
    if c == '<' {
      assert '>' !in lt && '"' !in lt && '\'' !in lt;
      return;
    }
    ReplaceAllOne(c, '>', "&gt;");
    var gt := ReplaceAll(lt, '>', "&gt;");
    if c == '>' {
      assert '"' !in gt && '\'' !in gt;
      return;
    }
    ReplaceAllOne(c, '"', "&quot;");
    var quot := ReplaceAll(gt, '"', "&quot;");
    if c == '"' {
      assert '\'' !in quot;
      return;
    }
    ReplaceAllOne(c, '\'', "&#039;");
  }

  /** The sequence of `replaceAll` passes equals the single-pass reference escaping. */
  lemma {:induction false} EscapeHtmlIsEscapeEach(s: string)
    ensures EscapeHtml(s) == EscapeEach(s)
  {
    if s != [] {
      assert s == [s[0]] + s[1..];
      EscapeHtmlConcat([s[0]], s[1..]);
      EscapeHtmlChar(s[0]);
      EscapeHtmlIsEscapeEach(s[1..]);
    }
  }

  lemma UnescapeEscapeChar(c: char, rest: string)
    ensures Unescape(EscapeChar(c) + rest) == [c] + Unescape(rest)
  {
    var e := EscapeChar(c) + rest;
    if c == '&' {
      assert "&amp;" <= e && e[5..] == rest;
    } else if c == '<' {
      assert e[1] == 'l';
      assert "&lt;" <= e && e[4..] == rest;
    } else if c == '>' {
      assert e[1] == 'g';
      assert "&gt;" <= e && e[4..] == rest;
    } else if c == '"' {
      assert e[1] == 'q';
      assert "&quot;" <= e && e[6..] == rest;
    } else if c == '\'' {
      assert e[1] == '#';
      assert "&#039;" <= e && e[6..] == rest;
    } else {
      assert e[0] == c && e[1..] == rest;
    }
  }

  /** Escaped text decodes back to the original: no character is lost and no entity is
      escaped a second time. */
  lemma {:induction false} UnescapeEscapeHtml(s: string)
    ensures Unescape(EscapeHtml(s)) == s
  {
    EscapeHtmlIsEscapeEach(s);
    UnescapeEscapeEach(s);
  }

  lemma {:induction false} UnescapeEscapeEach(s: string)
    ensures Unescape(EscapeEach(s)) == s
  {
    if s != [] {
      UnescapeEscapeChar(s[0], EscapeEach(s[1..]));
      UnescapeEscapeEach(s[1..]);
    }
  }

  /** Two different titles never render as the same escaped text. */
  lemma EscapeHtmlInjective(a: string, b: string)
    requires EscapeHtml(a) == EscapeHtml(b)
    ensures a == b
  {
    UnescapeEscapeHtml(a);
    UnescapeEscapeHtml(b);
  }

  // ---------------------------------------------------------------------------
  // pad2
  // ---------------------------------------------------------------------------

  predicate IsDigit(c: char) {
    '0' <= c <= '9'
  }

  function DigitChar(d: nat): (c: char)
    requires d < 10
    ensures IsDigit(c) && DigitValue(c) == d
  {
    ('0' as int + d) as char
  }

  function DigitValue(c: char): nat
    requires IsDigit(c)
  {
    c as int - '0' as int
  }

  /** `String(n)` for a natural number: its decimal digits, without leading zeros. */
  function NatToString(n: nat): (r: string)
    ensures 1 <= |r|
    ensures forall i :: 0 <= i < |r| ==> IsDigit(r[i])
    ensures n < 10 <==> |r| == 1
    ensures n < 100 ==> |r| <= 2
  {
    if n < 10 then [DigitChar(n)] else NatToString(n / 10) + [DigitChar(n % 10)]
  }

  /** The number a string of decimal digits denotes; leading zeros do not count. */
  function DecimalValue(s: string): nat
    requires forall i :: 0 <= i < |s| ==> IsDigit(s[i])
  {
    if s == [] then 0 else DecimalValue(s[..|s| - 1]) * 10 + DigitValue(s[|s| - 1])
  }

  /** `String(value).padStart(2, '0')`. */
  function Pad2(n: nat): (r: string)
    ensures forall i :: 0 <= i < |r| ==> IsDigit(r[i])
    ensures n < 100 <==> |r| == 2
  {
    var digits := NatToString(n);
    if |digits| < 2 then "0" + digits else digits
  }

  lemma {:induction false} NatToStringRoundTrip(n: nat)
    ensures DecimalValue(NatToString(n)) == n
  {
    var s := NatToString(n);
    if n >= 10 {
      assert s[..|s| - 1] == NatToString(n / 10);
      NatToStringRoundTrip(n / 10);
    }
  }

  /** A padded label reads back as the number it was made from. */
  lemma Pad2RoundTrip(n: nat)
    ensures DecimalValue(Pad2(n)) == n
  {
    NatToStringRoundTrip(n);
    var r := Pad2(n);
    if n < 10 {
      assert r[..1] == "0";
      assert r[..|r| - 1][..0] == [];
    }
  }

  /** Different hours get different labels. */
  lemma Pad2Injective(m: nat, n: nat)
    requires Pad2(m) == Pad2(n)
    ensures m == n
  {
    Pad2RoundTrip(m);
    Pad2RoundTrip(n);
  }


  // ---------------------------------------------------------------------------
  // toUpperCase (ASCII letters)
  // ---------------------------------------------------------------------------

  /** `toUpperCase` on one character, for the ASCII range the program's own labels use. */
  function UpperChar(c: char): (u: char)
    ensures 'a' <= c <= 'z' ==> 'A' <= u <= 'Z' && u as int == c as int - 32
    ensures !('a' <= c <= 'z') ==> u == c
  {
    if 'a' <= c <= 'z' then (c as int - 32) as char else c
  }

  /** `toUpperCase` on a string of ASCII characters: each lower-case letter becomes its
      upper-case partner and every other character stays. */
  function UpperAscii(s: string): (r: string)
    ensures |r| == |s|
    ensures forall i :: 0 <= i < |s| ==> r[i] == UpperChar(s[i])
  {
    if s == [] then [] else [UpperChar(s[0])] + UpperAscii(s[1..])
  }

}
